=== FILE: README.md ===
# Dropbox prompt server — a Dafny model of its string logic

The server in `src/index.ts` keeps AI prompts as Markdown files in a Dropbox folder. It serves
them through an MCP prompt-list handler and a prompt-get handler, and through four tools:
`save_prompt`, `list_prompts`, `get_prompt` and `search_prompts`. All of its logic is plain string work:
- `normalizePath` turns a prompt name into a Dropbox path under the configured root;
- a listing keeps only `.md` files and shows each under its name with the first ".md" cut out;
- a search keeps the listed files whose lower-cased file name contains the lower-cased query.

This project models that logic in Dafny and proves what it promises and where it falls short.

The modules follow the program's layers:

- `Wrappers`: `Option` and `Result`.
- `Seqs`: `Array.prototype.filter` and `map` on sequences, and the subsequence order.
- `JsString` models the JavaScript string methods the server uses:
  - `trim`, over the exact ECMAScript white-space and line-terminator set;
  - `startsWith`, `endsWith`, `indexOf` and `includes`;
  - `replace` with a string pattern, which replaces only the first occurrence;
  - `toLowerCase`, restricted to ASCII letters.
- `PosixPath`: Node's `path.posix.join` and `normalize`. The path is split at '/' and the segments are resolved on a stack:
  - "" and "." are dropped;
  - ".." removes the previous segment;
  - at the top of a relative path, ".." is kept.
- `PromptPath`: `normalizePath`. The root folder (`DROPBOX_ROOT_PATH`, "" when unset) is a parameter.
- `Listing`: the entry filter, display names, prompt descriptions, the listed folder path and the name search.
- `Server`: the two request handlers and the tool dispatcher, over a Dropbox account made of two maps:
  - file contents by path; a path that is missing fails to download;
  - recursive folder listings by folder path; a folder that is missing fails to list, and an upload adds its file to every listing that covers it.

  A tool's `arguments` are `None` when absent. Destructuring them then throws, so the reply is an error.

## Model

| member | source | states |
|---|---|---|
| JsString.TrimStartSpec | src/index.ts:67 | the leading cut of `trim` removes only white space and stops at a non-space character |
| JsString.TrimEndSpec | src/index.ts:67 | the trailing cut of `trim` removes only white space and stops at a non-space character |
| JsString.TrimSpec | src/index.ts:67 | `trim` yields a slice of its input with only white space before and after it, whose ends are not white space |
| JsString.TrimUnique | src/index.ts:67 | that description pins the trim down: any string meeting it is the trim |
| JsString.TrimIdempotent | src/index.ts:67 | trimming a trimmed string changes nothing |
| JsString.IndexOf | src/index.ts:266 | `indexOf` returns the first position where the pattern occurs, and nothing exactly when it occurs nowhere |
| JsString.SameIgnoringCaseLower | src/index.ts:261-266 | two strings have the same lower-case form exactly when they are equal up to the case of ASCII letters, a relation defined character by character without lowering (`JsString.CaseVariant`) |
| JsString.ToLowerIdempotent | src/index.ts:261 | lower-casing twice is lower-casing once |
| PosixPath.Split | src/index.ts:73 | a path splits into at least one segment, none containing '/' |
| PosixPath.JoinSplit | src/index.ts:73 | gluing the segments back with '/' gives the original path |
| PosixPath.SplitJoin | src/index.ts:73 | splitting '/'-glued segments gives them back |
| PosixPath.SplitAtSlash | src/index.ts:73 | splitting `x + "/" + y` splits `x` and `y` separately |
| PosixPath.ResolvePlain | src/index.ts:73 | segments that are neither empty, "." nor ".." are pushed unchanged |
| PosixPath.ResolveKeepsStack | src/index.ts:73 | without ".." segments, resolution never removes what is already on the stack |
| PosixPath.NormalizeUnderPrefix | src/index.ts:73 | joining a path free of ".." below a plain absolute folder gives a path that starts with that folder |
| PosixPath.NormalizeAbsolute | src/index.ts:73 | normalizing an absolute path gives a non-empty path that starts with '/' |
| PosixPath.NormalizeRelative | src/index.ts:73 | normalizing a relative path gives a non-empty path that does not start with '/' |
| PromptPath.WithLeadingSlash | src/index.ts:68-70 | the result starts with '/'; an input that already starts with '/' is kept, and any other input gets one '/' in front |
| PromptPath.NormalizePath | src/index.ts:66-80 | the result ends with ".md"; it is the rooted path itself, or the rooted path with the whole ".md" appended, and the latter only when the rooted path did not end with ".md" |
| PromptPath.LeadingSlashIff | src/index.ts:66-80 | the result starts with '/' exactly when the root is empty or starts with '/' |
| PromptPath.TrivialRootNoJoin | src/index.ts:71-79 | with root "" or "/", the result is the trimmed name with '/' added in front and ".md" added at the end, each only when missing |
| PromptPath.RootNotRepeated | src/index.ts:72-74 | a path that already starts with the root string is not joined to it again |
| PromptPath.StaysUnderRoot | src/index.ts:71-75 | under a normal absolute root, the result for a name without ".." segments starts with the root string (not necessarily inside the root folder; see RootPrefixIsTextual) |
| PromptPath.NormalizeIdempotent | src/index.ts:66-80 | normalizing a normalized path changes nothing, for a trivial root, or for a normal root and a name without ".." segments |
| PromptPath.SlashSpellingSame | src/index.ts:67-70 | a name and the same name with a leading '/' give the same path |
| PromptPath.ExtensionSpellingSame | src/index.ts:76-78 | with a trivial root, a name and the same name with ".md" added give the same path |
| PromptPath.DotDotEscapesRoot | src/index.ts:71-75 | under root "/p", the name "../../x" escapes to "/x.md", and normalizing again gives "/p/x.md" |
| PromptPath.RelativeRootRepeats | src/index.ts:71-75 | under the relative root "p", the name "x" gives "p/x.md", and normalizing again gives "p/p/x.md" |
| PromptPath.RootPrefixIsTextual | src/index.ts:72 | under root "/p", the name "pq/x" gives "/pq/x.md", outside the folder "/p/" |
| Seqs.Filter | src/index.ts:91 | the filter keeps exactly the elements that pass, and adds none |
| Seqs.FilterAppend | src/index.ts:91 | filtering a concatenation filters each part, in order |
| Seqs.FilterFilter | src/index.ts:262-267 | filtering by one test and then another is filtering by both at once |
| Seqs.FilterCongruent | src/index.ts:262-267 | two tests that agree on every element filter alike |
| Seqs.FilterIsSubsequence | src/index.ts:91 | the filter's output is a subsequence of its input |
| Seqs.MapSubsequence | src/index.ts:268 | mapping preserves the subsequence order |
| Listing.ListFolderPath | src/index.ts:86 | the listed folder is never "/", and is "" exactly for the roots "" and "/" |
| Listing.DisplayName | src/index.ts:93 | the first ".md" of the file name is cut out, wherever it is, and a name without ".md" is kept |
| Listing.PromptFiles | src/index.ts:91 | the listing keeps exactly the entries that are files whose name ends with ".md" |
| Listing.PromptFilesOrder | src/index.ts:91 | the listing keeps its input's order and decides each entry alone |
| Listing.PromptNamesShape | src/index.ts:91-93 | the listed files are a subsequence of the entries, and each name is the display name of the file at the same position |
| Listing.DisplayNameOfSaved | src/index.ts:93 | a name without ".md" in it, once saved as `name + ".md"`, is listed as that name again |
| Listing.DisplayNameCutsFirstOccurrence | src/index.ts:93 | the file "x.mdy.md" is listed as "xy.md", because the first ".md" is cut and not the extension |
| Listing.SearchMembership | src/index.ts:261-268 | an entry is a hit exactly when it is a prompt file whose lower-cased name contains the lower-cased query |
| Listing.SearchRefinesListing | src/index.ts:261-268 | the search equals the listing filtered again by the name test, so its names are a subsequence of the listed names |
| Listing.SearchCaseInsensitive | src/index.ts:261-266 | queries that differ only in the case of ASCII letters (each character the same, or the other case of the same letter) give the same results |
| Listing.SearchExtensionMatchesAll | src/index.ts:266 | the query ".md", in any case, matches every prompt, because the test sees the extension |
| Server.ListPromptsRequest | src/index.ts:103-106 | a failed listing yields no prompts rather than an error |
| Server.GetPromptRequest | src/index.ts:110-138 | the handler succeeds exactly when the normalized path exists, returning the content stored there, and otherwise fails with InvalidRequest |
| Server.SavePrompt | src/index.ts:207-221 | a save writes one file, whose path ends with ".md", with non-empty content, and every existing folder listing that covers the path lists that file; a refused save changes nothing |
| Server.ListPrompts | src/index.ts:223-236 | `list_prompts` answers exactly when the root folder can be listed, with the listing's prompt names (`Listing.PromptNames`), and otherwise fails |
| Server.GetPrompt | src/index.ts:238-250 | `get_prompt` returns text only for a non-empty name; given one, it returns text exactly when the normalized path exists, and that text is the content stored there |
| Server.SearchPrompts | src/index.ts:252-279 | a reply other than an error needs a non-empty query and a listable root; a match reply is the non-empty `Listing.SearchNames` of the root listing, and "no matches" means that search found nothing |
| Server.CallTool | src/index.ts:203-288 | only `save_prompt` changes the account; in the model no tool creates or removes a folder (see the `Server.Upload` line under Left out); an unknown tool is MethodNotFound |
| Server.SaveThenGet | src/index.ts:207-250 | what `save_prompt` stores under a name, `get_prompt` and the prompt-get handler read back under that name |
| Server.SaveFrame | src/index.ts:211-216 | a save leaves every other path as before, and every listing that does not cover the saved path |
| Server.Upload | src/index.ts:212-216 | the upload overwrites one file and leaves every other file alone; each existing folder listing that covers the path gains the file at its end if it lacked it and is otherwise unchanged: it grows by at most one entry, and a listing that already held the file, or does not cover the path, stays the same |
| Server.BaseName | src/index.ts:91 | an entry's name is the longest suffix of its path without '/' |
| Server.BaseNameKeepsExtension | src/index.ts:91 | the file name of a path ending with ".md" ends with ".md", so a saved prompt passes the listing filter |
| Server.SaveThenListed | src/index.ts:212-231 | a prompt saved inside the listed root folder (always, for root "" or "/") is then listed by `list_prompts` under its display name, and everything listed before stays listed in order; the new listing is the old one, or the old one with that one name added at its end. This holds while the root's recursive listing fits in the one page the server reads (see the `Server.SaveThenListed` line under Left out) |
| Server.SavedOutsideRoot | src/index.ts:72-74 | under root "/p" the name "pq/x" is saved at "/pq/x.md", outside the listing of "/p", so `list_prompts` does not show it |
| Server.ListingExtended | src/index.ts:229-231 | entries added at the end of a listing keep the names listed before, in order |
| Server.PromptListed | src/index.ts:229-231 | a prompt file in a listing has its display name among the listed names |
| Server.SearchAllReported | src/index.ts:262-268 | every prompt file whose lower-cased name contains the lower-cased query is among the search's names |
| Server.SearchNoneIff | src/index.ts:262-274 | the search finds nothing exactly when no prompt file's name contains the query |
| Server.SaveCollision | src/index.ts:211-216 | two names with the same normalized path share one file, and the later save wins |
| Server.ValidationFirst | src/index.ts:207-254 | a falsy name, content or query is refused with InvalidParams, before Dropbox is touched and whatever its contents |
| Server.UnknownToolIsError | src/index.ts:281-287 | any other tool name gives an error reply with MethodNotFound |
| Server.SlashRootIsEmptyRoot | src/index.ts:86 | roots "/" and "" list the same folder, for the handler, `list_prompts` and `search_prompts` |
| Server.ListingsAgree | src/index.ts:229-231 | the prompt-list handler and `list_prompts` report the same names in the same order |
| Server.SearchWithinListing | src/index.ts:252-279 | a match reply is exactly `Listing.SearchNames`, a subsequence of what `list_prompts` replies; every prompt whose file name contains the query, ignoring case, is reported; "no matches" is replied exactly when there is none |
| Server.EmptyNameHandledDifferently | src/index.ts:110-116 | the prompt-get handler does not check for an empty name: it reads the file that name normalizes to, where `get_prompt` refuses |

## Left out

- Network and process concerns are not modelled:
  - the Dropbox SDK calls themselves, and the HTTPS proxy;
  - `dotenv` loading and the access-token check with `process.exit`;
  - the stdio transport and the server wiring.

  Dropbox is replaced by the two maps above.
- The tool descriptions and input schemas (`src/index.ts:141-200`) are left out. They are static data.
- `src/verify-dropbox.ts` is not part of this model. It is a stand-alone connectivity script.
- Upload failures are left out. In the model, `filesUpload` always succeeds and overwrites.
- A listing is taken as given, in Dropbox's order; only an upload changes it (`Server.Upload`). The server reads only the first page of a listing: `filesListFolder` is called at `src/index.ts:85-88`, `224-227` and `256-259`, and neither `has_more` nor `filesListFolderContinue` is used. A `folders` entry stands for that one page.
- The reply texts are not modelled: the joined name lists, the success sentence and the `McpError` message strings. Replies carry the names, paths and codes instead.
- Tool argument values other than strings are left out, along with the `process.env` lookup that sets the root.
- JsString.ToLower: lower-cases ASCII letters only. It leaves out the Unicode case mapping of `toLowerCase`, which needs the Unicode tables.
- PosixPath.Normalize and PosixPath.Join model `path.posix`. They are written from its documented behaviour, not from Node's own source code.
- `normalizePath` does not strip an existing ".md" from the name: "a.md" is kept as it is, and "a.md " is trimmed first.
- The search tests the whole file name, extension included, and not the display name (`Listing.SearchExtensionMatchesAll`).
- Server.SaveFrame: paths are compared exactly, while Dropbox compares paths ignoring letter case. In Dropbox a save of "A" replaces "/a.md"; here it writes a second file "/A.md". So SaveFrame's "every other path" and SaveCollision's "same normalized path" hold only for paths that differ beyond letter case. The folder test `Server.InFolder` is exact for the same reason.
- Server.Upload: an upload adds the file to the listings of the existing folders that cover it, at the end. Dropbox's listing order, and the folder entries it reports for new intermediate folders, are not modelled. An upload also does not create the folders above the file, so a root folder that cannot be listed stays that way after a save. A `folders` entry is the one page `filesListFolder` returns, and the upload appends to it as if the whole recursive listing fit in that page.
- Server.SaveThenListed: holds only while the root's recursive listing fits in one page. With more entries than a page holds (with root "" that means the whole account), Dropbox may put the saved file on a later page, which `list_prompts` never reads, so the prompt is saved but not listed.

=== FILE: js_string.dfy ===
/** The JavaScript string methods the server relies on, over `seq<char>`. */
module JsString {
  import opened Wrappers

  /** The characters `String.prototype.trim` removes: ECMAScript's WhiteSpace
      (tab, vertical tab, form feed, space, no-break space, zero-width no-break
      space and the Unicode category Zs) and LineTerminator (LF, CR, U+2028, U+2029). */
  predicate IsSpace(c: char) {
    || c == '\t' || c == '\n' || c == '\U{B}' || c == '\U{C}' || c == '\r' || c == ' '
    || c == '\U{A0}' || c == '\U{1680}' || ('\U{2000}' <= c <= '\U{200A}')
    || c == '\U{2028}' || c == '\U{2029}' || c == '\U{202F}' || c == '\U{205F}'
    || c == '\U{3000}' || c == '\U{FEFF}'
  }

  /** `s` with its leading white space removed. */
  function TrimStart(s: string): string {
    if |s| > 0 && IsSpace(s[0]) then TrimStart(s[1..]) else s
  }

  /** `s` with its trailing white space removed. */
  function TrimEnd(s: string): string {
    if |s| > 0 && IsSpace(s[|s| - 1]) then TrimEnd(s[..|s| - 1]) else s
  }

  /** `String.prototype.trim`. */
  function Trim(s: string): string {
    TrimEnd(TrimStart(s))
  }

  /** TrimStart drops exactly the leading white space: what is left is a suffix of `s` that does
      not start with a space, and every dropped character is a space. */
  lemma {:induction false} TrimStartSpec(s: string)
    ensures var r := TrimStart(s);
      && |r| <= |s| && r == s[|s| - |r|..]
      && AllSpace(s[..|s| - |r|])
      && (|r| > 0 ==> !IsSpace(r[0]))
    decreases |s|
  {
    if |s| > 0 && IsSpace(s[0]) {
      TrimStartSpec(s[1..]);
      var r := TrimStart(s);
      assert s[..|s| - |r|] == [s[0]] + s[1..][..|s[1..]| - |r|];
    }
  }

  /** TrimEnd drops exactly the trailing white space. */
  lemma {:induction false} TrimEndSpec(s: string)
    ensures var r := TrimEnd(s);
      && |r| <= |s| && r == s[..|r|]
      && AllSpace(s[|r|..])
      && (|r| > 0 ==> !IsSpace(r[|r| - 1]))
    decreases |s|
  {
    if |s| > 0 && IsSpace(s[|s| - 1]) {
      TrimEndSpec(s[..|s| - 1]);
      var r := TrimEnd(s);
      assert s[|r|..] == s[..|s| - 1][|r|..] + [s[|s| - 1]];
    }
  }

  /** Every character of `w` is white space. */
  ghost predicate AllSpace(w: string) {
    forall i :: 0 <= i < |w| ==> IsSpace(w[i])
  }

  /** `s` is `lead` spaces, then `r`, then only spaces; `r` has no white space at either end. */
  ghost predicate IsTrimAt(s: string, r: string, lead: nat) {
    && lead + |r| <= |s|
    && AllSpace(s[..lead])
    && s[lead..lead + |r|] == r
    && AllSpace(s[lead + |r|..])
    && (|r| > 0 ==> !IsSpace(r[0]) && !IsSpace(r[|r| - 1]))
  }

  /** `r` is what is left of `s` once white space is cut from both ends. */
  ghost predicate IsTrimOf(s: string, r: string) {
    exists lead: nat :: IsTrimAt(s, r, lead)
  }

  /** Trim cuts exactly the white space at both ends of `s`. */
  lemma TrimSpec(s: string)
    ensures IsTrimOf(s, Trim(s))
  {
    var t := TrimStart(s);
    var r := TrimEnd(t);
    TrimStartSpec(s);
    TrimEndSpec(t);
    var lead := |s| - |t|;
    assert s[lead..lead + |r|] == t[..|r|];
    assert s[lead + |r|..] == t[|r|..];
    assert IsTrimAt(s, r, lead);
  }

  /** The trim of `s` is unique: any two ways of cutting white space from both ends agree. */
  lemma TrimUnique(s: string, r1: string, r2: string)
    requires IsTrimOf(s, r1) && IsTrimOf(s, r2)
    ensures r1 == r2
  {
    var a: nat :| IsTrimAt(s, r1, a);
    var b: nat :| IsTrimAt(s, r2, b);
    TrimUniqueAt(s, r1, a, r2, b);
  }

  lemma TrimUniqueAt(s: string, r1: string, a: nat, r2: string, b: nat)
    requires IsTrimAt(s, r1, a) && IsTrimAt(s, r2, b)
    ensures r1 == r2
  {
  }

  /** A string with no white space at either end is its own trim. */
  lemma TrimOfTrimmed(s: string)
    requires |s| > 0 ==> !IsSpace(s[0]) && !IsSpace(s[|s| - 1])
    ensures Trim(s) == s
  {
  }

  /** Trimming is idempotent. */
  lemma TrimIdempotent(s: string)
    ensures Trim(Trim(s)) == Trim(s)
  {
    TrimSpec(s);
    TrimOfTrimmed(Trim(s));
  }

  /** `String.prototype.startsWith`. */
  predicate StartsWith(s: string, prefix: string) {
    |prefix| <= |s| && s[..|prefix|] == prefix
  }

  /** `String.prototype.endsWith`. */
  predicate EndsWith(s: string, suffix: string) {
    |suffix| <= |s| && s[|s| - |suffix|..] == suffix
  }

  /** `pat` occurs in `s` starting at index `i`. */
  ghost predicate OccursAt(s: string, pat: string, i: int) {
    0 <= i && i + |pat| <= |s| && s[i..i + |pat|] == pat
  }

  /** `String.prototype.indexOf` searching from position `from`. */
  function IndexOfFrom(s: string, pat: string, from: nat): (r: Option<nat>)
    requires from <= |s|
    ensures r.Some? ==> from <= r.value && OccursAt(s, pat, r.value)
    ensures r.Some? ==> forall j :: from <= j < r.value ==> !OccursAt(s, pat, j)
    ensures r.None? ==> forall j :: from <= j ==> !OccursAt(s, pat, j)
    decreases |s| - from
  {
    if from + |pat| > |s| then None
    else if s[from..from + |pat|] == pat then Some(from)
    else IndexOfFrom(s, pat, from + 1)
  }

  /** `String.prototype.indexOf`: the first position at which `pat` occurs, if any. */
  function IndexOf(s: string, pat: string): (r: Option<nat>)
    ensures r.Some? ==> OccursAt(s, pat, r.value)
    ensures r.Some? ==> forall j :: 0 <= j < r.value ==> !OccursAt(s, pat, j)
    ensures r.None? <==> forall j :: !OccursAt(s, pat, j)
  {
    IndexOfFrom(s, pat, 0)
  }

  /** `String.prototype.includes`. */
  predicate Includes(s: string, pat: string) {
    IndexOf(s, pat).Some?
  }

  /** `String.prototype.replace` with a string pattern: only the FIRST occurrence is replaced. */
  function ReplaceFirst(s: string, pat: string, rep: string): (r: string)
  {
    match IndexOf(s, pat)
    case None => s
    case Some(i) => s[..i] + rep + s[i + |pat|..]
  }

  /** `String.prototype.toLowerCase`, restricted to ASCII letters. */
  function ToLowerChar(c: char): char {
    if 'A' <= c <= 'Z' then (c as int + ('a' as int - 'A' as int)) as char else c
  }

  function ToLower(s: string): (r: string)
    ensures |r| == |s|
    ensures forall i :: 0 <= i < |s| ==> r[i] == ToLowerChar(s[i])
  {
    seq(|s|, i requires 0 <= i < |s| => ToLowerChar(s[i]))
  }

  /** `c` and `d` are the same character, or the upper- and lower-case forms of one ASCII letter. */
  ghost predicate CaseVariant(c: char, d: char) {
    c == d
    || ('A' <= c <= 'Z' && d as int == c as int + 32)
    || ('a' <= c <= 'z' && d as int == c as int - 32)
  }

  /** `a` and `b` spell the same word up to the case of ASCII letters. */
  ghost predicate SameIgnoringCase(a: string, b: string) {
    |a| == |b| && forall i :: 0 <= i < |a| ==> CaseVariant(a[i], b[i])
  }

  /** Two characters lower alike exactly when they are case variants of each other. */
  lemma CaseVariantLower(c: char, d: char)
    ensures ToLowerChar(c) == ToLowerChar(d) <==> CaseVariant(c, d)
  {
  }

  /** Lowering identifies exactly the strings that differ only in letter case. */
  lemma SameIgnoringCaseLower(a: string, b: string)
    ensures ToLower(a) == ToLower(b) <==> SameIgnoringCase(a, b)
  {
    if ToLower(a) == ToLower(b) {
      forall i | 0 <= i < |a|
        ensures CaseVariant(a[i], b[i])
      {
        assert ToLower(a)[i] == ToLower(b)[i];
        CaseVariantLower(a[i], b[i]);
      }
    }
    if SameIgnoringCase(a, b) {
      forall i | 0 <= i < |a|
        ensures ToLower(a)[i] == ToLower(b)[i]
      {
        CaseVariantLower(a[i], b[i]);
      }
    }
  }

  /** Lowering is idempotent and never produces an upper-case ASCII letter. */
  lemma ToLowerIdempotent(s: string)
    ensures ToLower(ToLower(s)) == ToLower(s)
    ensures forall i :: 0 <= i < |s| ==> !('A' <= ToLower(s)[i] <= 'Z')
  {
  }
}

=== FILE: listing.dfy ===
/** The listing filter, display names and name search shared by the prompt-list handler and the
    `list_prompts` / `search_prompts` tools. */
module Listing {
  import opened JsString
  import opened Wrappers
  import Seqs
  import PromptPath

  /** The `.tag` of a Dropbox folder-listing entry. */
  datatype Tag = File | Folder | Deleted

  /** One entry of a recursive Dropbox folder listing: its tag, its file name (last path
      component) and its display path. */
  datatype Entry = Entry(tag: Tag, name: string, pathDisplay: string)

  /** What the prompt-list handler reports for each prompt. */
  datatype PromptInfo = PromptInfo(name: string, description: string)

  /** The folder path the handlers list: Dropbox names its root folder "", never "/". */
  function ListFolderPath(root: string): (p: string)
    ensures p != "/"
    ensures p == "" <==> PromptPath.IsTrivialRoot(root)
    ensures !PromptPath.IsTrivialRoot(root) ==> p == root
  {
    if root == "/" then "" else root
  }

  /** The filter of both listing handlers: a file whose name ends with ".md". */
  predicate IsPromptFile(e: Entry) {
    e.tag == File && EndsWith(e.name, PromptPath.Extension)
  }

  /** `pat` first occurs in `s` at `i`. */
  ghost predicate FirstOccurrence(s: string, pat: string, i: int) {
    OccursAt(s, pat, i) && forall j :: 0 <= j < i ==> !OccursAt(s, pat, j)
  }

  /** The prompt name shown for a file, `name.replace(".md", "")`: the FIRST ".md" is cut out,
      wherever it is, and a name without ".md" is left alone. */
  function DisplayName(fileName: string): (r: string)
    ensures (exists i :: FirstOccurrence(fileName, PromptPath.Extension, i)) ==>
      exists i :: FirstOccurrence(fileName, PromptPath.Extension, i) && r == fileName[..i] + fileName[i + 3..]
    ensures (forall i :: !OccursAt(fileName, PromptPath.Extension, i)) ==> r == fileName
  {
    ReplaceFirst(fileName, PromptPath.Extension, "")
  }

  /** The display name of an entry. */
  function EntryDisplayName(e: Entry): string {
    DisplayName(e.name)
  }

  /** The entries both listing handlers keep. */
  function PromptFiles(entries: seq<Entry>): (r: seq<Entry>)
    ensures |r| <= |entries|
    ensures forall k :: 0 <= k < |r| ==> r[k] in entries && IsPromptFile(r[k])
    ensures forall k :: 0 <= k < |entries| && IsPromptFile(entries[k]) ==> entries[k] in r
  {
    Seqs.Filter(entries, IsPromptFile)
  }

  /** The names `list_prompts` reports. */
  function PromptNames(entries: seq<Entry>): (names: seq<string>)
    ensures |names| <= |entries|
  {
    Seqs.Map(EntryDisplayName, PromptFiles(entries))
  }

  /** The prompts the prompt-list handler reports, described by their display path. */
  function PromptInfos(entries: seq<Entry>): seq<PromptInfo> {
    Seqs.Map((e: Entry) => PromptInfo(EntryDisplayName(e), "Imported from Dropbox: " + e.pathDisplay), PromptFiles(entries))
  }

  /** The name test of `search_prompts`: the whole lower-cased file name, ".md" included,
      contains the lower-cased query. */
  predicate NameMatches(e: Entry, lowerQuery: string) {
    Includes(ToLower(e.name), lowerQuery)
  }

  /** The entries `search_prompts` keeps, in listing order. */
  function SearchFiles(entries: seq<Entry>, query: string): seq<Entry> {
    var lowerQuery := ToLower(query);
    Seqs.Filter(entries, (e: Entry) => IsPromptFile(e) && NameMatches(e, lowerQuery))
  }

  /** The names `search_prompts` reports. */
  function SearchNames(entries: seq<Entry>, query: string): seq<string> {
    Seqs.Map(EntryDisplayName, SearchFiles(entries, query))
  }

  // ---------------------------------------------------------------------------------------
  // Properties of the listing

  /** The listing keeps prompt files in input order: it is a homomorphism over concatenation and
      keeps a single entry exactly when it is a prompt file. */
  lemma PromptFilesOrder(a: seq<Entry>, b: seq<Entry>, e: Entry)
    ensures PromptFiles(a + b) == PromptFiles(a) + PromptFiles(b)
    ensures PromptFiles([e]) == if IsPromptFile(e) then [e] else []
  {
    Seqs.FilterAppend(a, b, IsPromptFile);
    Seqs.FilterSingleton(e, IsPromptFile);
  }

  /** The listing only deletes entries, and each reported name is the display name of the
      prompt file in the same position. */
  lemma PromptNamesShape(entries: seq<Entry>)
    ensures Seqs.IsSubsequence(PromptFiles(entries), entries)
    ensures |PromptNames(entries)| == |PromptFiles(entries)|
    ensures forall k :: 0 <= k < |PromptFiles(entries)| ==>
      PromptNames(entries)[k] == DisplayName(PromptFiles(entries)[k].name)
  {
    Seqs.FilterIsSubsequence(entries, IsPromptFile);
  }

  /** The prompt-list handler and the `list_prompts` tool report the same names in the same order. */
  lemma HandlersAgree(entries: seq<Entry>)
    ensures |PromptInfos(entries)| == |PromptNames(entries)|
    ensures forall k :: 0 <= k < |PromptNames(entries)| ==> PromptInfos(entries)[k].name == PromptNames(entries)[k]
  {
  }

  /** A name saved without ".md" in it is listed under that same name: the file is `name + ".md"`
      and its first ".md" is the extension. */
  lemma {:induction false} DisplayNameOfSaved(name: string)
    requires !Includes(name, PromptPath.Extension)
    ensures DisplayName(name + PromptPath.Extension) == name
  {
    var s := name + PromptPath.Extension;
    assert OccursAt(s, PromptPath.Extension, |name|);
    assert forall j :: !OccursAt(name, PromptPath.Extension, j);
    forall j | 0 <= j < |name|
      ensures !OccursAt(s, PromptPath.Extension, j)
    {
      if j + 3 <= |name| {
        assert s[j..j + 3] == name[j..j + 3];
        assert !OccursAt(name, PromptPath.Extension, j);
      } else if j == |name| - 1 {
        assert s[j..j + 3][1] == s[|name|] == '.';
      } else {
        assert s[j..j + 3][2] == s[|name|] == '.';
      }
    }
    assert IndexOf(s, PromptPath.Extension) == Some(|name|);
    assert s[..|name|] == name;
  }

  /** A name with ".md" inside loses its FIRST ".md", not the extension: the file
      "x.mdy.md" is listed as "xy.md". */
  lemma DisplayNameCutsFirstOccurrence(fileName: string)
    requires fileName == "x.mdy.md"
    ensures DisplayName(fileName) == "xy.md"
  {
    assert OccursAt(fileName, PromptPath.Extension, 1);
    assert fileName[0..3][0] == 'x';
    assert !OccursAt(fileName, PromptPath.Extension, 0);
    assert IndexOf(fileName, PromptPath.Extension) == Some(1);
    assert fileName[..1] + fileName[4..] == "xy.md";
  }

  // ---------------------------------------------------------------------------------------
  // Properties of the search

  /** An entry is a search hit exactly when it is a prompt file whose lower-cased name contains
      the lower-cased query. */
  lemma SearchMembership(entries: seq<Entry>, query: string, e: Entry)
    ensures e in SearchFiles(entries, query) <==>
      e in entries && IsPromptFile(e) && Includes(ToLower(e.name), ToLower(query))
  {
    var r := SearchFiles(entries, query);
    if e in r {
      var k :| 0 <= k < |r| && r[k] == e;
    }
    if e in entries && IsPromptFile(e) && Includes(ToLower(e.name), ToLower(query)) {
      var k :| 0 <= k < |entries| && entries[k] == e;
    }
  }

  /** The search is the listing filtered once more by the name test, so its results are the
      listing's results in listing order with some left out. */
  lemma SearchRefinesListing(entries: seq<Entry>, query: string)
    ensures var lowerQuery := ToLower(query);
      SearchFiles(entries, query) == Seqs.Filter(PromptFiles(entries), (e: Entry) => NameMatches(e, lowerQuery))
    ensures Seqs.IsSubsequence(SearchNames(entries, query), PromptNames(entries))
  {
    var lowerQuery := ToLower(query);
    var hit := (e: Entry) => IsPromptFile(e) && NameMatches(e, lowerQuery);
    var matches := (e: Entry) => NameMatches(e, lowerQuery);
    Seqs.FilterFilter(entries, IsPromptFile, matches, hit);
    Seqs.FilterIsSubsequence(PromptFiles(entries), matches);
    Seqs.MapSubsequence(EntryDisplayName, SearchFiles(entries, query), PromptFiles(entries));
  }

  /** A query and any variant of it in other letter case give identical results. */
  lemma SearchCaseInsensitive(entries: seq<Entry>, q1: string, q2: string)
    requires SameIgnoringCase(q1, q2)
    ensures SearchNames(entries, q1) == SearchNames(entries, q2)
  {
    SameIgnoringCaseLower(q1, q2);
  }

  /** The name test sees the extension: a query of ".md", in any case, matches every prompt. */
  lemma SearchExtensionMatchesAll(entries: seq<Entry>, query: string)
    requires SameIgnoringCase(query, PromptPath.Extension)
    ensures SearchNames(entries, query) == PromptNames(entries)
  {
    SameIgnoringCaseLower(query, PromptPath.Extension);
    assert ToLower(query) == PromptPath.Extension;
    var hit := (e: Entry) => IsPromptFile(e) && NameMatches(e, ToLower(query));
    forall e | e in entries
      ensures hit(e) == IsPromptFile(e)
    {
      if IsPromptFile(e) {
        var n := |e.name|;
        assert ToLower(e.name)[n - 3..] == PromptPath.Extension;
        assert OccursAt(ToLower(e.name), PromptPath.Extension, n - 3);
      }
    }
    Seqs.FilterCongruent(entries, hit, IsPromptFile);
  }
}

=== FILE: posix_path.dfy ===
/** Node's `path.posix.join` and `path.posix.normalize`, modelled on '/'-separated segments.
    A path is split at every '/', the segments are resolved against a stack
    ("" and "." are dropped, ".." removes the previous segment), and the stack is
    joined again with a leading '/' for absolute paths and a trailing '/' kept. */
module PosixPath {

  /** The segments between the '/' characters of `s`, as `s.split("/")` returns them. */
  function Split(s: string): (segs: seq<string>)
    ensures |segs| >= 1
    ensures forall k :: 0 <= k < |segs| ==> '/' !in segs[k]
    decreases |s|
  {
    if |s| == 0 then [""]
    else if s[0] == '/' then [""] + Split(s[1..])
    else
      var rest := Split(s[1..]);
      [[s[0]] + rest[0]] + rest[1..]
  }

  /** The segments glued together with '/', as `segs.join("/")`. */
  function JoinSegments(segs: seq<string>): string
  {
    if |segs| == 0 then ""
    else if |segs| == 1 then segs[0]
    else segs[0] + "/" + JoinSegments(segs[1..])
  }

  /** Joining the pieces of a split gives back the string. */
  lemma {:induction false} JoinSplit(s: string)
    ensures JoinSegments(Split(s)) == s
    decreases |s|
  {
    if |s| > 0 {
      JoinSplit(s[1..]);
      var rest := Split(s[1..]);
      if s[0] == '/' {
        assert s == "/" + s[1..];
      } else if |rest| == 1 {
        assert s == [s[0]] + s[1..];
      } else {
        assert JoinSegments(rest) == rest[0] + "/" + JoinSegments(rest[1..]);
        assert s == [s[0]] + s[1..];
      }
    }
  }

  /** Splitting `x + "/" + y` splits `x` and `y` separately. */
  lemma {:induction false} SplitAtSlash(x: string, y: string)
    ensures Split(x + "/" + y) == Split(x) + Split(y)
    decreases |x|
  {
    if |x| == 0 {
      assert x + "/" + y == "/" + y;
      assert ("/" + y)[1..] == y;
    } else {
      assert (x + "/" + y)[1..] == x[1..] + "/" + y;
      SplitAtSlash(x[1..], y);
    }
  }

  /** A string without '/' is a single segment. */
  lemma {:induction false} SplitNoSlash(s: string)
    requires '/' !in s
    ensures Split(s) == [s]
    decreases |s|
  {
    if |s| > 0 {
      assert s[1..] == s[|s| - (|s| - 1)..];
      assert '/' !in s[1..];
      SplitNoSlash(s[1..]);
      assert s == [s[0]] + s[1..];
    }
  }

  /** Splitting the join of '/'-free segments gives the segments back. */
  lemma {:induction false} SplitJoin(segs: seq<string>)
    requires |segs| >= 1
    requires forall k :: 0 <= k < |segs| ==> '/' !in segs[k]
    ensures Split(JoinSegments(segs)) == segs
    decreases |segs|
  {
    SplitNoSlash(segs[0]);
    if |segs| > 1 {
      SplitAtSlash(segs[0], JoinSegments(segs[1..]));
      SplitJoin(segs[1..]);
      assert segs == [segs[0]] + segs[1..];
    }
  }

  /** Joining a concatenation of two non-empty segment lists puts one '/' between their joins. */
  lemma {:induction false} JoinAppend(a: seq<string>, b: seq<string>)
    requires |a| >= 1 && |b| >= 1
    ensures JoinSegments(a + b) == JoinSegments(a) + "/" + JoinSegments(b)
    decreases |a|
  {
    if |a| == 1 {
      assert (a + b)[1..] == b;
    } else {
      assert (a + b)[1..] == a[1..] + b;
      JoinAppend(a[1..], b);
    }
  }

  /** One step of resolution: how a single segment changes the stack of resolved segments.
      `aboveRoot` (true for relative paths) lets ".." pile up when there is nothing to remove. */
  function Step(stack: seq<string>, seg: string, aboveRoot: bool): seq<string>
  {
    if seg == "" || seg == "." then stack
    else if seg == ".." then
      if |stack| > 0 && stack[|stack| - 1] != ".." then stack[..|stack| - 1]
      else if aboveRoot then stack + [".."]
      else stack
    else stack + [seg]
  }

  /** Resolves `segs` left to right onto `stack`. */
  function Resolve(stack: seq<string>, segs: seq<string>, aboveRoot: bool): seq<string>
    decreases |segs|
  {
    if |segs| == 0 then stack else Resolve(Step(stack, segs[0], aboveRoot), segs[1..], aboveRoot)
  }

  /** A segment that resolution keeps as it is. */
  predicate IsPlainSegment(seg: string) {
    seg != "" && seg != "." && seg != ".."
  }

  /** Resolving `a + b` is resolving `a`, then `b` on the result. */
  lemma {:induction false} ResolveAppend(stack: seq<string>, a: seq<string>, b: seq<string>, aboveRoot: bool)
    ensures Resolve(stack, a + b, aboveRoot) == Resolve(Resolve(stack, a, aboveRoot), b, aboveRoot)
    decreases |a|
  {
    if |a| == 0 {
      assert a + b == b;
    } else {
      assert (a + b)[1..] == a[1..] + b;
      ResolveAppend(Step(stack, a[0], aboveRoot), a[1..], b, aboveRoot);
    }
  }

  /** Plain segments are pushed unchanged. */
  lemma {:induction false} ResolvePlain(stack: seq<string>, segs: seq<string>, aboveRoot: bool)
    requires forall k :: 0 <= k < |segs| ==> IsPlainSegment(segs[k])
    ensures Resolve(stack, segs, aboveRoot) == stack + segs
    decreases |segs|
  {
    if |segs| > 0 {
      ResolvePlain(stack + [segs[0]], segs[1..], aboveRoot);
      assert stack + [segs[0]] + segs[1..] == stack + segs;
    }
  }

  /** Without ".." nothing already on the stack is removed. */
  lemma {:induction false} ResolveKeepsStack(stack: seq<string>, segs: seq<string>, aboveRoot: bool)
    requires forall k :: 0 <= k < |segs| ==> segs[k] != ".."
    ensures |stack| <= |Resolve(stack, segs, aboveRoot)|
    ensures Resolve(stack, segs, aboveRoot)[..|stack|] == stack
    decreases |segs|
  {
    if |segs| > 0 {
      var next := Step(stack, segs[0], aboveRoot);
      ResolveKeepsStack(next, segs[1..], aboveRoot);
      assert next[..|stack|] == stack;
    }
  }

  /** Resolution only ever pushes non-empty segments without '/'. */
  lemma {:induction false} ResolveSegmentsNonEmpty(stack: seq<string>, segs: seq<string>, aboveRoot: bool)
    requires forall k :: 0 <= k < |stack| ==> stack[k] != "" && '/' !in stack[k]
    requires forall k :: 0 <= k < |segs| ==> '/' !in segs[k]
    ensures forall k :: 0 <= k < |Resolve(stack, segs, aboveRoot)| ==>
      Resolve(stack, segs, aboveRoot)[k] != "" && '/' !in Resolve(stack, segs, aboveRoot)[k]
    decreases |segs|
  {
    if |segs| > 0 {
      ResolveSegmentsNonEmpty(Step(stack, segs[0], aboveRoot), segs[1..], aboveRoot);
    }
  }

  /** `path.posix.normalize`. */
  function Normalize(p: string): string
  {
    if |p| == 0 then "."
    else
      var absolute := p[0] == '/';
      var trailing := p[|p| - 1] == '/';
      var segs := Resolve([], Split(p), !absolute);
      if |segs| == 0 then
        (if absolute then "/" else if trailing then "./" else ".")
      else
        (if absolute then "/" else "") + JoinSegments(segs) + (if trailing then "/" else "")
  }

  /** `path.posix.join` of two arguments: the non-empty ones glued with '/', then normalized. */
  function Join(a: string, b: string): string
  {
    if |a| == 0 && |b| == 0 then "."
    else if |a| == 0 then Normalize(b)
    else if |b| == 0 then Normalize(a)
    else Normalize(a + "/" + b)
  }

  /** Resolving an absolute prefix of plain segments followed by '..'-free segments keeps the
      prefix's segments in front. */
  lemma ResolveUnderPrefix(rs: seq<string>, rest: string)
    requires |rs| >= 1 && forall k :: 0 <= k < |rs| ==> IsPlainSegment(rs[k]) && '/' !in rs[k]
    requires forall k :: 0 <= k < |Split(rest)| ==> Split(rest)[k] != ".."
    ensures var segs := Resolve([], Split("/" + JoinSegments(rs) + "/" + rest), false);
      |rs| <= |segs| && segs[..|rs|] == rs
  {
    var prefix := "/" + JoinSegments(rs);
    var cs := Split(rest);
    SplitJoin([""] + rs);
    JoinAppend([""], rs);
    assert Split(prefix) == [""] + rs;
    SplitAtSlash(prefix, rest);
    ResolveAppend([], [""] + rs, cs, false);
    assert Resolve([], [""] + rs, false) == Resolve([], rs, false) by {
      assert ([""] + rs)[1..] == rs;
    }
    ResolvePlain([], rs, false);
    assert [] + rs == rs;
    ResolveKeepsStack(rs, cs, false);
  }

  /** Normalizing such a path keeps the prefix as a string prefix. */
  lemma NormalizeUnderPrefix(rs: seq<string>, rest: string)
    requires |rs| >= 1 && forall k :: 0 <= k < |rs| ==> IsPlainSegment(rs[k]) && '/' !in rs[k]
    requires |rest| > 0 && forall k :: 0 <= k < |Split(rest)| ==> Split(rest)[k] != ".."
    ensures var prefix := "/" + JoinSegments(rs);
      |prefix| <= |Join(prefix, rest)| && Join(prefix, rest)[..|prefix|] == prefix
  {
    var prefix := "/" + JoinSegments(rs);
    var p := prefix + "/" + rest;
    var segs := Resolve([], Split(p), false);
    ResolveUnderPrefix(rs, rest);
    var body := JoinSegments(segs);
    assert body[..|JoinSegments(rs)|] == JoinSegments(rs) by {
      if |segs| > |rs| {
        assert segs == rs + segs[|rs|..];
        JoinAppend(rs, segs[|rs|..]);
      } else {
        assert segs == rs;
      }
    }
    NormalizeAbsoluteShape(p);
    assert Join(prefix, rest) == Normalize(p);
  }

  /** The shape of a normalized absolute path with at least one resolved segment. */
  lemma NormalizeAbsoluteShape(p: string)
    requires |p| > 0 && p[0] == '/' && |Resolve([], Split(p), false)| > 0
    ensures Normalize(p) == "/" + JoinSegments(Resolve([], Split(p), false)) + (if p[|p| - 1] == '/' then "/" else "")
  {
  }

  /** An absolute path normalizes to an absolute path. */
  lemma NormalizeAbsolute(p: string)
    requires |p| > 0 && p[0] == '/'
    ensures |Normalize(p)| > 0 && Normalize(p)[0] == '/'
  {
  }

  /** A relative path never normalizes to an absolute one: its first segment is non-empty. */
  lemma NormalizeRelative(p: string)
    requires |p| > 0 && p[0] != '/'
    ensures |Normalize(p)| > 0 && Normalize(p)[0] != '/'
  {
    var segs := Resolve([], Split(p), true);
    ResolveSegmentsNonEmpty([], Split(p), true);
    if |segs| > 0 {
      if |segs| > 1 {
        assert JoinSegments(segs) == segs[0] + "/" + JoinSegments(segs[1..]);
      }
      assert JoinSegments(segs)[0] == segs[0][0];
    }
  }
}

=== FILE: prompt_path.dfy ===
/** `normalizePath`: from a prompt name to the Dropbox path of its Markdown file.
    The configured root folder (the `DROPBOX_ROOT_PATH` setting, "" when unset) is a parameter. */
module PromptPath {
  import opened JsString
  import PosixPath

  /** The file extension every prompt file carries. */
  const Extension: string := ".md"

  /** A root of "" or "/" stands for the whole Dropbox: nothing is joined in front of names. */
  predicate IsTrivialRoot(root: string) {
    root == "" || root == "/"
  }

  /** `s` with a '/' put in front unless it already starts with one. */
  function WithLeadingSlash(s: string): (r: string)
    ensures StartsWith(r, "/")
    ensures r == s || r == "/" + s
    ensures StartsWith(s, "/") ==> r == s
  {
    if StartsWith(s, "/") then s else "/" + s
  }

  /** The first three steps of `normalizePath`: trim, ensure the leading '/', and join the root
      in front unless the path already starts with the root string. */
  function Rooted(root: string, name: string): string {
    UnderRoot(root, WithLeadingSlash(Trim(name)))
  }

  /** The third step of `normalizePath`: `clean` is joined below a non-trivial root unless it
      already starts with the root string. */
  function UnderRoot(root: string, clean: string): string {
    if !IsTrivialRoot(root) && !StartsWith(clean, root) then PosixPath.Join(root, clean) else clean
  }

  /** `normalizePath`: the rooted path with ".md" appended unless it already ends with ".md". */
  function NormalizePath(root: string, name: string): (r: string)
    ensures EndsWith(r, Extension)
    ensures r == Rooted(root, name) || r == Rooted(root, name) + Extension
    ensures EndsWith(Rooted(root, name), Extension) ==> r == Rooted(root, name)
  {
    var p := Rooted(root, name);
    if EndsWith(p, Extension) then p else p + Extension
  }

  /** A root in normal form: a leading '/', then one or more segments, none empty, "." or "..". */
  predicate IsNormalRoot(root: string) {
    && |root| > 0
    && root[0] == '/'
    && forall k :: 0 <= k < |PosixPath.Split(root[1..])| ==> PosixPath.IsPlainSegment(PosixPath.Split(root[1..])[k])
  }

  /** No segment of `s` is "..". */
  predicate HasNoDotDot(s: string) {
    forall k :: 0 <= k < |PosixPath.Split(s)| ==> PosixPath.Split(s)[k] != ".."
  }

  /** The joined path starts with '/' exactly when the root is empty or starts with '/'. */
  lemma UnderRootLeadingSlash(root: string, clean: string)
    requires StartsWith(clean, "/")
    ensures |UnderRoot(root, clean)| > 0
    ensures UnderRoot(root, clean)[0] == '/' <==> (root == "" || root[0] == '/')
  {
    if !IsTrivialRoot(root) && !StartsWith(clean, root) {
      var p := root + "/" + clean;
      assert p[0] == root[0];
      if root[0] == '/' {
        PosixPath.NormalizeAbsolute(p);
      } else {
        PosixPath.NormalizeRelative(p);
      }
    }
  }

  /** The result starts with '/' exactly when the root is empty or itself starts with '/':
      a relative root such as "prompts" yields relative paths. */
  lemma LeadingSlashIff(root: string, name: string)
    ensures StartsWith(NormalizePath(root, name), "/") <==> (root == "" || root[0] == '/')
  {
    var p := Rooted(root, name);
    UnderRootLeadingSlash(root, WithLeadingSlash(Trim(name)));
    NormalizeFromRooted(root, name, p);
  }

  /** With a trivial root the result is the trimmed name, with '/' prepended if it was missing
      and ".md" appended if it was missing; nothing else is added. */
  lemma TrivialRootNoJoin(root: string, name: string)
    requires IsTrivialRoot(root)
    ensures var t := Trim(name);
      NormalizePath(root, name) ==
        (if StartsWith(t, "/") then "" else "/") + t + (if EndsWith(t, Extension) then "" else Extension)
  {
    var t := Trim(name);
    var clean := WithLeadingSlash(t);
    assert UnderRoot(root, clean) == clean;
    NormalizeFromRooted(root, name, clean);
    if !StartsWith(t, "/") {
      EndsWithExtensionAfterSlash(t);
    }
  }

  /** Prepending '/' does not change whether a string ends with ".md". */
  lemma EndsWithExtensionAfterSlash(t: string)
    ensures EndsWith("/" + t, Extension) <==> EndsWith(t, Extension)
  {
    if |t| >= 3 {
      assert ("/" + t)[|"/" + t| - 3..] == t[|t| - 3..];
    } else {
      assert ("/" + t)[0] == '/';
    }
  }

  /** When the slash-prefixed trimmed name already starts with the root string, the root is not
      joined in again: the result is that path with at most the extension added. */
  lemma RootNotRepeated(root: string, name: string)
    requires StartsWith(WithLeadingSlash(Trim(name)), root)
    ensures var clean := WithLeadingSlash(Trim(name));
      NormalizePath(root, name) == clean || NormalizePath(root, name) == clean + Extension
  {
  }

  /** Resolving `root + "/" + clean` keeps every segment of a normal root in front. */
  lemma JoinStaysUnderRoot(root: string, clean: string)
    requires IsNormalRoot(root)
    requires |clean| > 0 && clean[0] == '/' && HasNoDotDot(clean)
    ensures StartsWith(PosixPath.Join(root, clean), root)
  {
    var rs := PosixPath.Split(root[1..]);
    PosixPath.JoinSplit(root[1..]);
    assert root == "/" + PosixPath.JoinSegments(rs);
    PosixPath.NormalizeUnderPrefix(rs, clean);
  }

  /** Slashing a name with no ".." segment adds none. */
  lemma SlashKeepsNoDotDot(t: string)
    requires HasNoDotDot(t)
    ensures HasNoDotDot(WithLeadingSlash(t))
  {
    if !StartsWith(t, "/") {
      assert ("/" + t)[0] == '/' && ("/" + t)[1..] == t;
      assert PosixPath.Split("/" + t) == [""] + PosixPath.Split(t);
    }
  }

  /** Under a normal root, the result for a name without ".." segments starts with the root
      string; that need not put it inside the root folder (see RootPrefixIsTextual). */
  lemma StaysUnderRoot(root: string, name: string)
    requires IsNormalRoot(root) && HasNoDotDot(Trim(name))
    ensures StartsWith(NormalizePath(root, name), root)
  {
    var clean := WithLeadingSlash(Trim(name));
    assert StartsWith(clean, "/");
    SlashKeepsNoDotDot(Trim(name));
    assert StartsWith(Rooted(root, name), root) by {
      if !StartsWith(clean, root) {
        assert |clean| > 0 && clean[0] == '/';
        JoinStaysUnderRoot(root, clean);
      }
    }
    NormalizeFromRooted(root, name, Rooted(root, name));
  }

  /** A path that begins with '/' and ends with ".md" is its own trim and its own slashing: its
      last character is 'd', which is not white space. */
  lemma CleanOfNormalized(r: string)
    requires StartsWith(r, "/") && EndsWith(r, Extension)
    ensures WithLeadingSlash(Trim(r)) == r
  {
    assert r[|r| - 1] == 'd';
    TrimOfTrimmed(r);
  }

  /** Normalizing twice is normalizing once, for a trivial root, or for a normal root and a name
      without ".." segments. */
  lemma {:induction false} NormalizeIdempotent(root: string, name: string)
    requires IsTrivialRoot(root) || (IsNormalRoot(root) && HasNoDotDot(Trim(name)))
    ensures NormalizePath(root, NormalizePath(root, name)) == NormalizePath(root, name)
  {
    var r := NormalizePath(root, name);
    LeadingSlashIff(root, name);
    CleanOfNormalized(r);
    if !IsTrivialRoot(root) {
      StaysUnderRoot(root, name);
    }
    assert Rooted(root, r) == r;
  }

  /** A name and the same name with a leading slash are one prompt: both reach the same file. */
  lemma SlashSpellingSame(root: string, name: string)
    requires |name| > 0 && !IsSpace(name[0]) && !IsSpace(name[|name| - 1]) && name[0] != '/'
    ensures NormalizePath(root, name) == NormalizePath(root, "/" + name)
  {
    var clean := "/" + name;
    CleanExample(name, clean);
    CleanExample(clean, clean);
  }

  /** With a trivial root, a name and the same name with ".md" spelled out are one prompt. */
  lemma ExtensionSpellingSame(root: string, name: string)
    requires IsTrivialRoot(root)
    requires |name| > 0 && !IsSpace(name[0]) && !IsSpace(name[|name| - 1]) && !EndsWith(name, Extension)
    ensures NormalizePath(root, name) == NormalizePath(root, name + Extension)
  {
    var clean := WithLeadingSlash(Trim(name));
    SpelledClean(name);
    NormalizeFromRooted(root, name, clean);
    NormalizeFromRooted(root, name + Extension, clean + Extension);
    assert EndsWith(clean + Extension, Extension) by {
      assert (clean + Extension)[|clean|..] == Extension;
    }
  }

  /** Spelling out ".md" on a name without surrounding white space or a trailing ".md" adds
      ".md" to its slashed form, which did not end with ".md". */
  lemma SpelledClean(name: string)
    requires |name| > 0 && !IsSpace(name[0]) && !IsSpace(name[|name| - 1]) && !EndsWith(name, Extension)
    ensures WithLeadingSlash(Trim(name + Extension)) == WithLeadingSlash(Trim(name)) + Extension
    ensures !EndsWith(WithLeadingSlash(Trim(name)), Extension)
  {
    var clean := if name[0] == '/' then name else "/" + name;
    var full := name + Extension;
    assert full[0] == name[0] && full[|full| - 1] == 'd';
    CleanExample(name, clean);
    if name[0] == '/' {
      CleanExample(full, clean + Extension);
    } else {
      assert "/" + full == clean + Extension;
      CleanExample(full, clean + Extension);
    }
    assert !EndsWith(clean, Extension) by {
      if |clean| >= 3 && |name| >= 3 {
        assert clean[|clean| - 3..] == name[|name| - 3..];
      }
    }
  }

  /** Without the ".." restriction idempotence fails: under root "/p" the name "../../x" climbs
      out of the root to "/x.md", and the second pass joins the root back in, giving "/p/x.md". */
  lemma DotDotEscapesRoot(root: string, name: string)
    requires root == "/p" && name == "../../x"
    ensures NormalizePath(root, name) == "/x.md"
    ensures NormalizePath(root, NormalizePath(root, name)) == "/p/x.md"
  {
    DotDotFirstPass(root, name);
    DotDotSecondPass(root, NormalizePath(root, name));
  }

  lemma DotDotFirstPass(root: string, name: string)
    requires root == "/p" && name == "../../x"
    ensures NormalizePath(root, name) == "/x.md"
  {
    var clean := WithLeadingSlash(Trim(name));
    CleanExample(name, "/../../x");
    assert !StartsWith(clean, root) by { assert clean[1] == '.'; }
    DotDotJoin(root, clean);
    NormalizeFromRooted(root, name, "/x");
  }

  lemma DotDotSecondPass(root: string, r: string)
    requires root == "/p" && r == "/x.md"
    ensures NormalizePath(root, r) == "/p/x.md"
  {
    CleanExample(r, r);
    assert !StartsWith(r, root) by { assert r[1] == 'x'; }
    RejoinJoin(root, r);
    NormalizeFromRooted(root, r, "/p/x.md");
  }

  lemma DotDotJoin(root: string, clean: string)
    requires root == "/p" && clean == "/../../x"
    ensures PosixPath.Join(root, clean) == "/x"
  {
    JoinExample(root, clean, ["", "p", "", "..", "..", "x"], false, ["x"], "/x");
  }

  lemma RejoinJoin(root: string, clean: string)
    requires root == "/p" && clean == "/x.md"
    ensures PosixPath.Join(root, clean) == "/p/x.md"
  {
    JoinExample(root, clean, ["", "p", "", "x.md"], false, ["p", "x.md"], "/p/x.md");
  }

  /** A relative root is joined in front on every pass, so normalizing is not idempotent:
      under root "p" the name "x" becomes "p/x.md", and that becomes "p/p/x.md". */
  lemma RelativeRootRepeats(root: string, name: string)
    requires root == "p" && name == "x"
    ensures NormalizePath(root, name) == "p/x.md"
    ensures NormalizePath(root, NormalizePath(root, name)) == "p/p/x.md"
  {
    RelativeFirstPass(root, name);
    RelativeSecondPass(root, NormalizePath(root, name));
  }

  lemma RelativeFirstPass(root: string, name: string)
    requires root == "p" && name == "x"
    ensures NormalizePath(root, name) == "p/x.md"
  {
    var clean := WithLeadingSlash(Trim(name));
    CleanExample(name, "/x");
    assert !StartsWith(clean, root) by { assert clean[0] == '/'; }
    RelativeJoin(root, clean);
    NormalizeFromRooted(root, name, "p/x");
  }

  lemma RelativeSecondPass(root: string, r: string)
    requires root == "p" && r == "p/x.md"
    ensures NormalizePath(root, r) == "p/p/x.md"
  {
    var clean := WithLeadingSlash(Trim(r));
    CleanExample(r, "/p/x.md");
    assert !StartsWith(clean, root) by { assert clean[0] == '/'; }
    RelativeRejoin(root, clean);
    NormalizeFromRooted(root, r, "p/p/x.md");
  }

  lemma RelativeJoin(root: string, clean: string)
    requires root == "p" && clean == "/x"
    ensures PosixPath.Join(root, clean) == "p/x"
  {
    JoinExample(root, clean, ["p", "", "x"], true, ["p", "x"], "p/x");
  }

  lemma RelativeRejoin(root: string, clean: string)
    requires root == "p" && clean == "/p/x.md"
    ensures PosixPath.Join(root, clean) == "p/p/x.md"
  {
    JoinExample(root, clean, ["p", "", "p", "x.md"], true, ["p", "p", "x.md"], "p/p/x.md");
  }

  /** `normalizePath` in terms of its rooted path, for computing examples. */
  lemma NormalizeFromRooted(root: string, name: string, p: string)
    requires Rooted(root, name) == p
    ensures NormalizePath(root, name) == if EndsWith(p, Extension) then p else p + Extension
  {
  }

  /** Trimming and slashing a name with no surrounding white space. */
  lemma CleanExample(name: string, clean: string)
    requires |name| > 0 && !IsSpace(name[0]) && !IsSpace(name[|name| - 1])
    requires clean == (if name[0] == '/' then name else "/" + name)
    ensures WithLeadingSlash(Trim(name)) == clean
  {
    TrimOfTrimmed(name);
  }

  /** `path.posix.join(root, clean)` computed from the segments of `root + "/" + clean`. */
  lemma JoinExample(root: string, clean: string, segs: seq<string>, aboveRoot: bool, resolved: seq<string>, joined: string)
    requires |root| > 0 && |clean| > 0 && clean[|clean| - 1] != '/'
    requires aboveRoot == (root[0] != '/')
    requires |segs| >= 1 && forall k :: 0 <= k < |segs| ==> '/' !in segs[k]
    requires PosixPath.JoinSegments(segs) == root + "/" + clean
    requires resolved == PosixPath.Resolve([], segs, aboveRoot) && |resolved| > 0
    requires joined == (if aboveRoot then "" else "/") + PosixPath.JoinSegments(resolved)
    ensures PosixPath.Join(root, clean) == joined
  {
    PosixPath.SplitJoin(segs);
  }

  /** The root test is a string prefix test, not a folder test: under root "/p" the name
      "pq/x" is left outside the folder "/p/". */
  lemma RootPrefixIsTextual(root: string, name: string)
    requires root == "/p" && name == "pq/x"
    ensures NormalizePath(root, name) == "/pq/x.md"
    ensures !StartsWith(NormalizePath(root, name), root + "/")
  {
    CleanExample(name, "/pq/x");
    NormalizeFromRooted(root, name, "/pq/x");
    assert NormalizePath(root, name)[2] == 'q';
  }
}

=== FILE: seqs.dfy ===
/** Order-preserving sequence combinators: the model's `Array.prototype.filter` and `.map`. */
module Seqs {

  /** The elements of `s` that satisfy `p`, in their original order. */
  function Filter<T>(s: seq<T>, p: T -> bool): (r: seq<T>)
    ensures |r| <= |s|
    ensures forall i :: 0 <= i < |r| ==> r[i] in s && p(r[i])
    ensures forall i :: 0 <= i < |s| && p(s[i]) ==> s[i] in r
  {
    if |s| == 0 then [] else (if p(s[0]) then [s[0]] else []) + Filter(s[1..], p)
  }

  /** `f` applied to every element of `s`, position by position. */
  function Map<T, U>(f: T -> U, s: seq<T>): (r: seq<U>)
    ensures |r| == |s|
    ensures forall i :: 0 <= i < |s| ==> r[i] == f(s[i])
  {
    seq(|s|, i requires 0 <= i < |s| => f(s[i]))
  }

  /** `a` can be obtained from `b` by deleting elements. */
  ghost predicate IsSubsequence<T>(a: seq<T>, b: seq<T>)
    decreases |b|
  {
    if |a| == 0 then true
    else if |b| == 0 then false
    else if a[0] == b[0] then IsSubsequence(a[1..], b[1..])
    else IsSubsequence(a, b[1..])
  }

  /** Filtering distributes over concatenation: it keeps each part's order and nothing moves across the seam. */
  lemma {:induction false} FilterAppend<T>(a: seq<T>, b: seq<T>, p: T -> bool)
    ensures Filter(a + b, p) == Filter(a, p) + Filter(b, p)
  {
    if |a| == 0 {
      assert a + b == b;
    } else {
      assert (a + b)[1..] == a[1..] + b;
      FilterAppend(a[1..], b, p);
    }
  }

  /** A filter of a one-element sequence keeps the element exactly when `p` holds; with FilterAppend
      this pins Filter down completely. */
  lemma FilterSingleton<T>(x: T, p: T -> bool)
    ensures Filter([x], p) == if p(x) then [x] else []
  {
    assert [x][1..] == [];
  }

  /** Filtering with two predicates one after the other is filtering with their conjunction. */
  lemma {:induction false} FilterFilter<T>(s: seq<T>, p: T -> bool, q: T -> bool, pq: T -> bool)
    requires forall x :: pq(x) == (p(x) && q(x))
    ensures Filter(Filter(s, p), q) == Filter(s, pq)
  {
    if |s| > 0 {
      FilterFilter(s[1..], p, q, pq);
      var head := if p(s[0]) then [s[0]] else [];
      FilterAppend(head, Filter(s[1..], p), q);
      if p(s[0]) {
        FilterSingleton(s[0], q);
      }
    }
  }

  /** Two predicates that agree on the elements of `s` select the same elements. */
  lemma {:induction false} FilterCongruent<T>(s: seq<T>, p: T -> bool, q: T -> bool)
    requires forall x :: x in s ==> p(x) == q(x)
    ensures Filter(s, p) == Filter(s, q)
  {
    if |s| > 0 {
      assert forall x :: x in s[1..] ==> x in s;
      FilterCongruent(s[1..], p, q);
    }
  }

  /** A filter only deletes elements. */
  lemma {:induction false} FilterIsSubsequence<T>(s: seq<T>, p: T -> bool)
    ensures IsSubsequence(Filter(s, p), s)
  {
    if |s| > 0 {
      FilterIsSubsequence(s[1..], p);
      if p(s[0]) {
        assert Filter(s, p) == [s[0]] + Filter(s[1..], p);
        assert Filter(s, p)[1..] == Filter(s[1..], p);
      } else {
        assert Filter(s, p) == Filter(s[1..], p);
        SubsequenceDropHead(Filter(s[1..], p), s);
      }
    }
  }

  /** Deleting the head of the larger sequence keeps a subsequence a subsequence of the whole. */
  lemma {:induction false} SubsequenceDropHead<T>(a: seq<T>, b: seq<T>)
    requires |b| > 0 && IsSubsequence(a, b[1..])
    ensures IsSubsequence(a, b)
    decreases |b|, 0
  {
    if |a| > 0 && a[0] == b[0] {
      // a[0] matches b[0]; a[1..] fits in b[1..] because a does.
      SubsequenceTail(a, b[1..]);
    }
  }

  /** If `a` fits in `b`, so does `a` without its head. */
  lemma {:induction false} SubsequenceTail<T>(a: seq<T>, b: seq<T>)
    requires |a| > 0 && IsSubsequence(a, b)
    ensures IsSubsequence(a[1..], b)
    decreases |b|, 1
  {
    assert |b| > 0;
    if a[0] != b[0] {
      SubsequenceTail(a, b[1..]);
      SubsequenceDropHead(a[1..], b);
    } else if |a[1..]| > 0 {
      SubsequenceDropHead(a[1..], b);
    }
  }

  /** Mapping both sides keeps the subsequence relation. */
  lemma {:induction false} MapSubsequence<T, U>(f: T -> U, a: seq<T>, b: seq<T>)
    requires IsSubsequence(a, b)
    ensures IsSubsequence(Map(f, a), Map(f, b))
    decreases |b|
  {
    if |a| > 0 {
      assert Map(f, b)[1..] == Map(f, b[1..]);
      if a[0] == b[0] {
        assert Map(f, a)[1..] == Map(f, a[1..]);
        MapSubsequence(f, a[1..], b[1..]);
      } else {
        MapSubsequence(f, a, b[1..]);
        SubsequenceDropHead(Map(f, a), Map(f, b));
      }
    }
  }
}

=== FILE: server.dfy ===
/** The request handlers and the four tools of the prompt server, over a Dropbox account modelled
    as two maps: file contents by path, and the recursive listings of the existing folders. */
module Server {
  import opened Wrappers
  import opened JsString
  import opened PromptPath
  import opened Listing

  /** The part of a Dropbox account the server sees. A path missing from `files` fails to
      download; a folder missing from `folders` fails to list. Dropbox names its root folder "".
      A listing in `folders` stands for the one page that `filesListFolder` returns: the server
      never asks for more, and the model treats that page as the whole recursive listing. */
  datatype Dropbox = Dropbox(files: map<string, string>, folders: map<string, seq<Entry>>)

  /** A recursive listing of `folder` covers `path`. */
  predicate InFolder(path: string, folder: string) {
    if folder == "" then StartsWith(path, "/") else StartsWith(path, folder + "/")
  }

  /** The last segment of a path, which Dropbox reports as an entry's `name`: the longest suffix
      without '/'. */
  function BaseName(path: string): (r: string)
    ensures |r| <= |path| && r == path[|path| - |r|..]
    ensures '/' !in r
    ensures |r| < |path| ==> path[|path| - |r| - 1] == '/'
    decreases |path|
  {
    if |path| == 0 || path[|path| - 1] == '/' then ""
    else BaseName(path[..|path| - 1]) + [path[|path| - 1]]
  }

  /** The listing entry of the file at `path`. */
  function FileEntry(path: string): Entry {
    Entry(File, BaseName(path), path)
  }

  /** `filesUpload` in overwrite mode: the file at `path` holds `content`, and every existing
      folder whose recursive listing covers `path` lists the file, appended at the end when it
      was not listed before. */
  function Upload(db: Dropbox, path: string, content: string): (after: Dropbox)
    ensures path in after.files && after.files[path] == content
    ensures forall p :: p != path ==>
      (p in after.files <==> p in db.files) && (p in db.files ==> after.files[p] == db.files[p])
    ensures after.folders.Keys == db.folders.Keys
    ensures forall f :: f in db.folders && InFolder(path, f) ==> FileEntry(path) in after.folders[f]
    ensures forall f :: f in db.folders ==>
      |db.folders[f]| <= |after.folders[f]| && after.folders[f][..|db.folders[f]|] == db.folders[f]
    ensures forall f :: f in db.folders && !InFolder(path, f) ==> after.folders[f] == db.folders[f]
    ensures forall f :: f in db.folders ==> |after.folders[f]| <= |db.folders[f]| + 1
    ensures forall f :: f in db.folders && FileEntry(path) in db.folders[f] ==> after.folders[f] == db.folders[f]
    ensures forall f :: f in db.folders ==>
      after.folders[f] == db.folders[f] || after.folders[f] == db.folders[f] + [FileEntry(path)]
  {
    var folders := map f | f in db.folders :: UploadListing(db.folders[f], f, path);
    Dropbox(db.files[path := content], folders)
  }

  /** The listing of `folder` after the file at `path` is uploaded. */
  function UploadListing(listing: seq<Entry>, folder: string, path: string): (r: seq<Entry>)
    ensures r == listing || r == listing + [FileEntry(path)]
    ensures InFolder(path, folder) ==> FileEntry(path) in r
    ensures !InFolder(path, folder) || FileEntry(path) in listing ==> r == listing
    ensures |listing| <= |r| <= |listing| + 1 && r[..|listing|] == listing
  {
    if InFolder(path, folder) && FileEntry(path) !in listing then listing + [FileEntry(path)] else listing
  }

  /** The MCP error codes the server raises. */
  datatype ErrorCode = InvalidParams | InvalidRequest | MethodNotFound

  /** Why a tool call failed: an MCP error it raised, arguments that are absent altogether (their
      destructuring throws), or a failed Dropbox call. */
  datatype ToolFailure = McpFailure(code: ErrorCode) | ArgumentsMissing | DropboxFailure

  /** What a tool call replies; `Failed` is the reply marked `isError`. */
  datatype ToolReply =
    | Saved(name: string, path: string)
    | Available(names: seq<string>)
    | PromptText(text: string)
    | Matches(names: seq<string>)
    | NoMatches(query: string)
    | Failed(failure: ToolFailure)

  /** A tool call's reply together with the account after it. */
  datatype Outcome = Outcome(reply: ToolReply, dropbox: Dropbox)

  const SaveTool := "save_prompt"
  const ListTool := "list_prompts"
  const GetTool := "get_prompt"
  const SearchTool := "search_prompts"

  predicate IsKnownTool(tool: string) {
    tool == SaveTool || tool == ListTool || tool == GetTool || tool == SearchTool
  }

  /** The reply carries `isError: true`. */
  predicate IsError(reply: ToolReply) {
    reply.Failed?
  }

  /** A string argument is falsy: absent (undefined) or empty. */
  predicate Falsy(args: map<string, string>, key: string) {
    key !in args || args[key] == ""
  }

  /** The listing of the configured root folder, if Dropbox has it. */
  function ListRoot(root: string, db: Dropbox): (r: Option<seq<Entry>>)
    ensures r.Some? <==> ListFolderPath(root) in db.folders
    ensures r.Some? ==> r.value == db.folders[ListFolderPath(root)]
  {
    var folder := ListFolderPath(root);
    if folder in db.folders then Some(db.folders[folder]) else None
  }

  // ---------------------------------------------------------------------------------------
  // Request handlers

  /** The prompt-list handler: every prompt file under the root, and no prompts at all when the
      listing fails. */
  function ListPromptsRequest(root: string, db: Dropbox): (prompts: seq<PromptInfo>)
    ensures ListFolderPath(root) !in db.folders ==> prompts == []
  {
    match ListRoot(root, db)
    case None => []
    case Some(entries) => PromptInfos(entries)
  }

  /** The prompt-get handler: the file at the normalised name, or an InvalidRequest error when
      the download fails. The name is not checked for emptiness. */
  function GetPromptRequest(root: string, name: string, db: Dropbox): (r: Result<string, ErrorCode>)
    ensures r.Failure? ==> r.error == InvalidRequest
    ensures r.Success? <==> NormalizePath(root, name) in db.files
    ensures r.Success? ==> r.value == db.files[NormalizePath(root, name)]
  {
    var path := NormalizePath(root, name);
    if path in db.files then Success(db.files[path]) else Failure(InvalidRequest)
  }

  // ---------------------------------------------------------------------------------------
  // Tools

  /** `save_prompt`: with a non-empty name and content, overwrite the file at the normalised name. */
  function SavePrompt(root: string, args: Option<map<string, string>>, db: Dropbox): (o: Outcome)
    ensures o.dropbox.folders.Keys == db.folders.Keys
    ensures IsError(o.reply) ==> o.dropbox == db
    ensures IsError(o.reply) || o.reply.Saved?
    ensures o.reply.Saved? ==> EndsWith(o.reply.path, Extension)
    ensures o.reply.Saved? ==> o.dropbox.files.Keys == db.files.Keys + {o.reply.path}
    ensures o.reply.Saved? ==> o.dropbox.files[o.reply.path] != ""
    ensures o.reply.Saved? ==> forall f :: f in db.folders && InFolder(o.reply.path, f) ==>
      FileEntry(o.reply.path) in o.dropbox.folders[f]
  {
    match args
    case None => Outcome(Failed(ArgumentsMissing), db)
    case Some(a) =>
      if Falsy(a, "name") || Falsy(a, "content") then
        Outcome(Failed(McpFailure(InvalidParams)), db)
      else
        var path := NormalizePath(root, a["name"]);
        Outcome(Saved(a["name"], path), Upload(db, path, a["content"]))
  }

  /** `list_prompts`: the names of every prompt file under the root. */
  function ListPrompts(root: string, db: Dropbox): (reply: ToolReply)
    ensures reply.Available? || reply == Failed(DropboxFailure)
    ensures reply.Available? <==> ListFolderPath(root) in db.folders
    ensures reply.Available? ==> reply.names == PromptNames(db.folders[ListFolderPath(root)])
  {
    match ListRoot(root, db)
    case None => Failed(DropboxFailure)
    case Some(entries) => Available(PromptNames(entries))
  }

  /** `get_prompt`: with a non-empty name, the text of the file at the normalised name. */
  function GetPrompt(root: string, args: Option<map<string, string>>, db: Dropbox): (reply: ToolReply)
    ensures reply.PromptText? || IsError(reply)
    ensures reply.PromptText? ==> args.Some? && !Falsy(args.value, "name")
    ensures args.Some? && !Falsy(args.value, "name") ==>
      (reply.PromptText? <==> NormalizePath(root, args.value["name"]) in db.files)
    ensures reply.PromptText? ==> reply.text == db.files[NormalizePath(root, args.value["name"])]
  {
    match args
    case None => Failed(ArgumentsMissing)
    case Some(a) =>
      if Falsy(a, "name") then Failed(McpFailure(InvalidParams))
      else
        var path := NormalizePath(root, a["name"]);
        if path in db.files then PromptText(db.files[path]) else Failed(DropboxFailure)
  }

  /** `search_prompts`: with a non-empty query, the names of the prompt files whose name
      contains it, ignoring case; a distinct reply when nothing matches. */
  function SearchPrompts(root: string, args: Option<map<string, string>>, db: Dropbox): (reply: ToolReply)
    ensures reply.Matches? ==> |reply.names| > 0
    ensures reply.Matches? || reply.NoMatches? || IsError(reply)
    ensures !IsError(reply) ==> args.Some? && !Falsy(args.value, "query") && ListFolderPath(root) in db.folders
    ensures reply.Matches? ==> reply.names == SearchNames(db.folders[ListFolderPath(root)], args.value["query"])
    ensures reply.NoMatches? ==> SearchNames(db.folders[ListFolderPath(root)], args.value["query"]) == []
  {
    match args
    case None => Failed(ArgumentsMissing)
    case Some(a) =>
      if Falsy(a, "query") then Failed(McpFailure(InvalidParams))
      else
        match ListRoot(root, db)
        case None => Failed(DropboxFailure)
        case Some(entries) =>
          var names := SearchNames(entries, a["query"]);
          if |names| == 0 then NoMatches(a["query"]) else Matches(names)
  }

  /** The tool-call handler: dispatch on the tool name; only `save_prompt` changes the account. */
  function CallTool(root: string, tool: string, args: Option<map<string, string>>, db: Dropbox): (o: Outcome)
    ensures tool != SaveTool ==> o.dropbox == db
    ensures o.dropbox.folders.Keys == db.folders.Keys
    ensures !IsKnownTool(tool) ==> o.reply == Failed(McpFailure(MethodNotFound))
  {
    if tool == SaveTool then SavePrompt(root, args, db)
    else if tool == ListTool then Outcome(ListPrompts(root, db), db)
    else if tool == GetTool then Outcome(GetPrompt(root, args, db), db)
    else if tool == SearchTool then Outcome(SearchPrompts(root, args, db), db)
    else Outcome(Failed(McpFailure(MethodNotFound)), db)
  }

  // ---------------------------------------------------------------------------------------
  // Properties

  /** Arguments with a prompt name and content. */
  function SaveArgs(name: string, content: string): map<string, string> {
    map["name" := name, "content" := content]
  }

  /** Arguments with a prompt name. */
  function GetArgs(name: string): map<string, string> {
    map["name" := name]
  }

  /** What `save_prompt` stores, `get_prompt` and the prompt-get handler read back under the same
      name. */
  lemma SaveThenGet(root: string, name: string, content: string, db: Dropbox)
    requires name != "" && content != ""
    ensures var saved := CallTool(root, SaveTool, Some(SaveArgs(name, content)), db);
      saved.reply == Saved(name, NormalizePath(root, name)) &&
      CallTool(root, GetTool, Some(GetArgs(name)), saved.dropbox).reply == PromptText(content) &&
      GetPromptRequest(root, name, saved.dropbox) == Success(content)
  {
    var a := SaveArgs(name, content);
    assert !Falsy(a, "name") && !Falsy(a, "content");
    assert !Falsy(GetArgs(name), "name");
  }

  /** Saving writes exactly one file: every other path is as before, and so is every listing
      that does not cover the saved path. */
  lemma SaveFrame(root: string, name: string, content: string, db: Dropbox, p: string, f: string)
    requires name != "" && content != ""
    requires p != NormalizePath(root, name)
    requires f in db.folders && !InFolder(NormalizePath(root, name), f)
    ensures var after := CallTool(root, SaveTool, Some(SaveArgs(name, content)), db).dropbox;
      (p in after.files <==> p in db.files) &&
      (p in db.files ==> after.files[p] == db.files[p]) &&
      after.folders[f] == db.folders[f]
  {
    var a := SaveArgs(name, content);
    assert !Falsy(a, "name") && !Falsy(a, "content");
  }

  /** Two names that normalise to the same path share one file: the later save overwrites the
      earlier, and reading either name returns the later content. */
  lemma SaveCollision(root: string, n1: string, c1: string, n2: string, c2: string, db: Dropbox)
    requires n1 != "" && c1 != "" && n2 != "" && c2 != ""
    requires NormalizePath(root, n1) == NormalizePath(root, n2)
    ensures var first := CallTool(root, SaveTool, Some(SaveArgs(n1, c1)), db).dropbox;
      var second := CallTool(root, SaveTool, Some(SaveArgs(n2, c2)), first).dropbox;
      GetPromptRequest(root, n1, second) == Success(c2) &&
      second.files.Keys == db.files.Keys + {NormalizePath(root, n1)}
  {
    var a1 := SaveArgs(n1, c1);
    var a2 := SaveArgs(n2, c2);
    assert !Falsy(a1, "name") && !Falsy(a1, "content");
    assert !Falsy(a2, "name") && !Falsy(a2, "content");
  }

  /** Before touching Dropbox each tool checks its arguments: a falsy name, content or query is
      rejected with InvalidParams, the account is untouched, and the reply does not depend on it. */
  lemma ValidationFirst(root: string, tool: string, a: map<string, string>, db1: Dropbox, db2: Dropbox)
    requires (tool == SaveTool && (Falsy(a, "name") || Falsy(a, "content"))) ||
             (tool == GetTool && Falsy(a, "name")) ||
             (tool == SearchTool && Falsy(a, "query"))
    ensures CallTool(root, tool, Some(a), db1).reply == Failed(McpFailure(InvalidParams))
    ensures CallTool(root, tool, Some(a), db1).dropbox == db1
    ensures CallTool(root, tool, Some(a), db1).reply == CallTool(root, tool, Some(a), db2).reply
  {
  }

  /** Only the four named tools are served: any other name is an error reply with MethodNotFound,
      whatever the arguments and the account. */
  lemma UnknownToolIsError(root: string, tool: string, args: Option<map<string, string>>, db: Dropbox)
    requires !IsKnownTool(tool)
    ensures IsError(CallTool(root, tool, args, db).reply)
    ensures CallTool(root, tool, args, db).reply.failure == McpFailure(MethodNotFound)
  {
  }

  /** A root of "/" and an empty root list the same folder. */
  lemma SlashRootIsEmptyRoot(db: Dropbox, args: Option<map<string, string>>)
    ensures ListPromptsRequest("/", db) == ListPromptsRequest("", db)
    ensures CallTool("/", ListTool, args, db) == CallTool("", ListTool, args, db)
    ensures CallTool("/", SearchTool, args, db) == CallTool("", SearchTool, args, db)
  {
    assert ListFolderPath("/") == ListFolderPath("");
  }

  /** The prompt-list handler and `list_prompts` report the same names, in the same order. */
  lemma ListingsAgree(root: string, db: Dropbox)
    requires ListFolderPath(root) in db.folders
    ensures var reply := CallTool(root, ListTool, None, db).reply;
      reply.Available? && |reply.names| == |ListPromptsRequest(root, db)| &&
      forall k :: 0 <= k < |reply.names| ==> ListPromptsRequest(root, db)[k].name == reply.names[k]
  {
    HandlersAgree(db.folders[ListFolderPath(root)]);
  }

  /** A search reply lists some of the prompts `list_prompts` lists, in the same order: exactly
      the names `SearchNames` finds, so every prompt whose file name contains the query, ignoring
      case, is reported, and "no matches" is replied exactly when there is none. */
  lemma SearchWithinListing(root: string, query: string, db: Dropbox)
    requires query != "" && ListFolderPath(root) in db.folders
    ensures var reply := CallTool(root, SearchTool, Some(map["query" := query]), db).reply;
      var listed := CallTool(root, ListTool, None, db).reply;
      var entries := db.folders[ListFolderPath(root)];
      listed == Available(PromptNames(entries)) &&
      (reply.Matches? ==> reply.names == SearchNames(entries, query)) &&
      (reply.Matches? ==> Seqs.IsSubsequence(reply.names, listed.names)) &&
      (reply.NoMatches? <==> forall e :: e in entries && IsPromptFile(e) ==> !Includes(ToLower(e.name), ToLower(query))) &&
      (forall e :: e in entries && IsPromptFile(e) && Includes(ToLower(e.name), ToLower(query)) ==>
        reply.Matches? && DisplayName(e.name) in reply.names)
  {
    var entries := db.folders[ListFolderPath(root)];
    SearchReply(root, query, db);
    SearchRefinesListing(entries, query);
    SearchAllReported(entries, query);
    SearchNoneIff(entries, query);
  }

  /** The search tool's reply for a non-empty query when the root folder can be listed. */
  lemma SearchReply(root: string, query: string, db: Dropbox)
    requires query != "" && ListFolderPath(root) in db.folders
    ensures var names := SearchNames(db.folders[ListFolderPath(root)], query);
      CallTool(root, SearchTool, Some(map["query" := query]), db).reply ==
        if |names| == 0 then NoMatches(query) else Matches(names)
  {
    assert !Falsy(map["query" := query], "query");
  }

  /** Every search hit is among the reported names. */
  lemma SearchAllReported(entries: seq<Entry>, query: string)
    ensures forall e :: e in entries && IsPromptFile(e) && Includes(ToLower(e.name), ToLower(query)) ==>
      DisplayName(e.name) in SearchNames(entries, query)
  {
    forall e | e in entries && IsPromptFile(e) && Includes(ToLower(e.name), ToLower(query))
      ensures DisplayName(e.name) in SearchNames(entries, query)
    {
      SearchReported(entries, query, e);
    }
  }

  /** The search reports nothing exactly when no prompt file's name contains the query. */
  lemma SearchNoneIff(entries: seq<Entry>, query: string)
    ensures |SearchNames(entries, query)| == 0 <==>
      forall e :: e in entries && IsPromptFile(e) ==> !Includes(ToLower(e.name), ToLower(query))
  {
    var hits := SearchFiles(entries, query);
    if |hits| > 0 {
      SearchMembership(entries, query, hits[0]);
    }
    if exists e :: e in entries && IsPromptFile(e) && Includes(ToLower(e.name), ToLower(query)) {
      var e :| e in entries && IsPromptFile(e) && Includes(ToLower(e.name), ToLower(query));
      SearchReported(entries, query, e);
    }
  }

  /** Every search hit is reported under its display name. */
  lemma SearchReported(entries: seq<Entry>, query: string, e: Entry)
    requires e in entries && IsPromptFile(e) && Includes(ToLower(e.name), ToLower(query))
    ensures DisplayName(e.name) in SearchNames(entries, query)
  {
    SearchMembership(entries, query, e);
    var hits := SearchFiles(entries, query);
    var j :| 0 <= j < |hits| && hits[j] == e;
    assert SearchNames(entries, query)[j] == EntryDisplayName(e);
  }

  /** The prompt-get handler has no emptiness check: an empty name reads the file at the
      normalised empty name, which `get_prompt` refuses to do. */
  lemma EmptyNameHandledDifferently(root: string, name: string, db: Dropbox)
    requires name == "" && NormalizePath(root, name) in db.files
    ensures GetPromptRequest(root, name, db).Success?
    ensures CallTool(root, GetTool, Some(GetArgs(name)), db).reply == Failed(McpFailure(InvalidParams))
  {
  }

  /** A path ending with ".md" has a base name ending with ".md". */
  lemma BaseNameKeepsExtension(path: string)
    requires EndsWith(path, Extension)
    ensures EndsWith(BaseName(path), Extension)
  {
    var n := |path|;
    assert path[n - 3..] == Extension;
    BaseNameLong(path);
    var b := BaseName(path);
    assert b[|b| - 3..] == path[n - 3..];
  }

  /** No '/' among the last three characters leaves at least three in the base name. */
  lemma BaseNameLong(path: string)
    requires |path| >= 3 && path[|path| - 1] != '/' && path[|path| - 2] != '/' && path[|path| - 3] != '/'
    ensures |BaseName(path)| >= 3
  {
  }

  /** A prompt saved inside the listed root folder is listed afterwards, under the display name
      of its file; with root "" or "/" every saved prompt is. Prompts listed before stay listed,
      and nothing else is added: the listing is as before, or gains that one name at its end.
      This is about the model, where a listing is one page that always has room: in Dropbox the
      new file can land on a later page, which the server does not read. */
  lemma SaveThenListed(root: string, name: string, content: string, db: Dropbox)
    requires name != "" && content != ""
    requires ListFolderPath(root) in db.folders
    requires IsTrivialRoot(root) || InFolder(NormalizePath(root, name), ListFolderPath(root))
    ensures var path := NormalizePath(root, name);
      var after := CallTool(root, SaveTool, Some(SaveArgs(name, content)), db).dropbox;
      var reply := CallTool(root, ListTool, None, after).reply;
      var earlier := CallTool(root, ListTool, None, db).reply;
      reply.Available? && DisplayName(BaseName(path)) in reply.names &&
      Seqs.IsSubsequence(earlier.names, reply.names) &&
      (reply.names == earlier.names || reply.names == earlier.names + [DisplayName(BaseName(path))])
  {
    var path := NormalizePath(root, name);
    var folder := ListFolderPath(root);
    if IsTrivialRoot(root) {
      LeadingSlashIff(root, name);
    }
    SaveUploads(root, name, content, db);
    var after := Upload(db, path, content);
    BaseNameKeepsExtension(path);
    ListedAfterUpload(db.folders[folder], after.folders[folder], FileEntry(path));
    if after.folders[folder] != db.folders[folder] {
      ListingGainsEntry(db.folders[folder], FileEntry(path));
    }
  }

  /** Appending a prompt file to a listing appends its display name to the listed names. */
  lemma ListingGainsEntry(before: seq<Entry>, e: Entry)
    requires IsPromptFile(e)
    ensures PromptNames(before + [e]) == PromptNames(before) + [EntryDisplayName(e)]
  {
    PromptFilesOrder(before, [e], e);
    var files := PromptFiles(before);
    assert PromptFiles(before + [e]) == files + [e];
    var lhs := PromptNames(before + [e]);
    var rhs := PromptNames(before) + [EntryDisplayName(e)];
    assert |lhs| == |rhs|;
    forall k | 0 <= k < |lhs|
      ensures lhs[k] == rhs[k]
    {
      if k < |files| {
        assert (files + [e])[k] == files[k];
      }
    }
  }

  /** A successful save is an upload at the normalised path. */
  lemma SaveUploads(root: string, name: string, content: string, db: Dropbox)
    requires name != "" && content != ""
    ensures CallTool(root, SaveTool, Some(SaveArgs(name, content)), db).dropbox ==
      Upload(db, NormalizePath(root, name), content)
  {
    var a := SaveArgs(name, content);
    assert !Falsy(a, "name") && !Falsy(a, "content");
  }

  /** A listing that extends `before` and holds the prompt file `e` lists that prompt, and
      lists every prompt `before` lists, in the same order. */
  lemma ListedAfterUpload(before: seq<Entry>, entries: seq<Entry>, e: Entry)
    requires |before| <= |entries| && entries[..|before|] == before
    requires e in entries && IsPromptFile(e)
    ensures EntryDisplayName(e) in PromptNames(entries)
    ensures Seqs.IsSubsequence(PromptNames(before), PromptNames(entries))
  {
    PromptListed(entries, e);
    ListingExtended(before, entries);
  }

  /** A prompt file in a listing has its display name among the listed names. */
  lemma PromptListed(entries: seq<Entry>, e: Entry)
    requires e in entries && IsPromptFile(e)
    ensures EntryDisplayName(e) in PromptNames(entries)
  {
    var files := PromptFiles(entries);
    var k :| 0 <= k < |entries| && entries[k] == e;
    var j :| 0 <= j < |files| && files[j] == e;
    PromptNamesShape(entries);
    assert PromptNames(entries)[j] == EntryDisplayName(e);
  }

  /** Entries added at the end of a listing keep the names listed before, in order. */
  lemma ListingExtended(before: seq<Entry>, entries: seq<Entry>)
    requires |before| <= |entries| && entries[..|before|] == before
    ensures Seqs.IsSubsequence(PromptNames(before), PromptNames(entries))
  {
    var rest := entries[|before|..];
    assert entries == before + rest;
    PromptFilesOrder(before, rest, Entry(File, "", ""));
    PrefixSubsequence(PromptFiles(before), PromptFiles(rest));
    Seqs.MapSubsequence(EntryDisplayName, PromptFiles(before), PromptFiles(entries));
  }

  /** A sequence is a subsequence of itself followed by anything. */
  lemma {:induction false} PrefixSubsequence<T>(a: seq<T>, b: seq<T>)
    ensures Seqs.IsSubsequence(a, a + b)
    decreases |a|
  {
    if |a| > 0 {
      PrefixSubsequence(a[1..], b);
      assert (a + b)[1..] == a[1..] + b;
    }
  }

  /** The root test is textual, and so a save can miss the listing: under root "/p" the name
      "pq/x" is saved at "/pq/x.md", which the listing of "/p" does not cover. */
  lemma SavedOutsideRoot(root: string, name: string, content: string, db: Dropbox)
    requires root == "/p" && name == "pq/x" && content != "" && root in db.folders
    ensures var after := CallTool(root, SaveTool, Some(SaveArgs(name, content)), db).dropbox;
      NormalizePath(root, name) in after.files && after.folders[root] == db.folders[root]
  {
    RootPrefixIsTextual(root, name);
    var a := SaveArgs(name, content);
    assert !Falsy(a, "name") && !Falsy(a, "content");
    assert !InFolder(NormalizePath(root, name), root) by {
      assert NormalizePath(root, name)[2] != '/';
    }
  }
}

=== FILE: wrappers.dfy ===
/** Failure-carrying values used across the model. */
module Wrappers {

  /** A value that may be absent, like an `undefined` property in JavaScript. */
  datatype Option<+T> = None | Some(value: T)

  /** Either a value or an error. */
  datatype Result<+R, +E> = Success(value: R) | Failure(error: E)
}
